=== FILE: README.md ===
# Bypass-auth model

A Dafny model of the optional "bypass authentication" mode of a chat web
application. When the server configuration sets `interfaceConfig.bypassAuth`
to `true`, unauthenticated requests run as a fixed guest identity. The client
recognises the same flag in its startup configuration. It then signs in a
local guest and switches off logout, silent refresh and the current-user
query.

The model is functional. Every operation is a pure function from a state
record and its inputs to the next state and an observable result.

- `values.dfy` (`Values`): `Option`, `Result`, and a `JsValue` for
  configuration flags. It defines strict comparison with `true`/`false`,
  JavaScript truthiness, and string prefixes.
- `http.dfy` (`Http`): the user record and the request fields that the
  middlewares read and write.
- `bypass_auth.dfy` (`BypassAuth`): the process-wide cache
  `{value, lastChecked}` with its 60 000 ms freshness window, the reload and
  its failure fallback, the cached read, the clear, and the guest-user
  factory. The clock reading `now` and the result of reading the
  configuration (`Result<Option<AppConfig>, string>`) are parameters. Each
  answer reports whether the configuration source was consulted.
  `Serve` runs a sequence of checks one after another.
- `require_jwt_auth.dfy` (`RequireJwtAuth`): strategy selection from the
  `token_provider` cookie and the token-reuse flag, and the bypass callback.
  The strategy's report is `VerifyError | Verified(user) | NoUser`.
- `optional_jwt_auth.dfy` (`OptionalJwtAuth`): the optional middleware, whose
  own copy of the strategy choice is proved equal to the required one.
- `headers.dfy` (`Headers`): `setTokenHeader` and `setAcceptLanguageHeader`
  as updates of a header map. `Authorization` uses the Bearer scheme of
  section 2.1 of RFC 6750.
- `startup_config.dfy` (`StartupConfig`): the client's startup
  configuration and the flags read from its `interface` section.
- `auth_context.dfy` (`AuthContext`): the client auth context as a state
  machine over `{user, token, isAuthenticated, headers, logoutRedirect,
  bypassInitialized}`. Each event returns the next state, a navigation and
  the network request it issues.
- `chat_header.dfy` (`ChatHeader`) and `root_view.dfy` (`Root`): the render
  predicates of the chat header and of the root layout, including the
  terms-of-service modal handling.

Both middlewares consult the cache on every request, before verification
runs (requireJwtAuth.js:25, optionalJwtAuth.js:11). A verification error is
forwarded even under bypass; only `NoUser` becomes the guest.

## Model

| member | source | states |
|---|---|---|
| BypassAuth.LoadBypassAuthState | api/server/utils/bypassAuth.js:12-27 | A successful read stores `{enabled, now}` and returns `enabled`. `enabled` holds iff `interfaceConfig.bypassAuth` is exactly `true`. A failed read keeps the state and returns the last value, or `false` if there is none. |
| BypassAuth.ShouldBypassAuth | api/server/utils/bypassAuth.js:29-39 | Without `force`, a fresh non-null value is returned with the state unchanged and no load. The source is consulted iff `force` is set, the value is null, or it is older than 60 s. A failed read always leaves the state unchanged and answers `value ?? false`. |
| BypassAuth.GetCachedBypassAuthState | api/server/utils/bypassAuth.js:59-61 | Answers true only when a value is cached. |
| BypassAuth.CachedIsFailureAnswer | api/server/utils/bypassAuth.js:59-61 | The cached read equals what a check answers when the configuration fails, for every state, time and `force`. So it is true iff the stored value is `true`, and the state is unchanged. |
| BypassAuth.ClearBypassAuthCache | api/server/utils/bypassAuth.js:63-68 | The cleared state is fresh at no time. |
| BypassAuth.ClearForcesReload | api/server/utils/bypassAuth.js:63-68 | The first check after a clear consults the source, whatever the time. If that read fails, the check answers `false`. |
| BypassAuth.FailedReloadRetries | api/server/utils/bypassAuth.js:23-36 | A failed reload of a stale state leaves it stale. Every later check retries the load. |
| BypassAuth.Serve | api/server/utils/bypassAuth.js:29-39 | A run of checks gives one answer per check. It consults the source at most once per check. With no loads, the state is unchanged. |
| BypassAuth.FreshWindowServesCachedValue | api/server/utils/bypassAuth.js:29-36 | Every unforced check inside the window of a stored value returns that value. None of them loads, and the state is unchanged. |
| BypassAuth.LoadThenWindow | api/server/utils/bypassAuth.js:14-36 | After a successful load at `t`, unforced checks before `t + 60 s` return the loaded flag. Exactly one load happens in the whole run. |
| BypassAuth.LoadThenExpiry | api/server/utils/bypassAuth.js:29-36 | After a successful load at `t`, an unforced check reloads iff it comes at `t + 60 s` or later, so the window is exactly 60 000 ms long. |
| BypassAuth.FailuresKeepState | api/server/utils/bypassAuth.js:23-26 | While every read fails, the state never changes. Every answer is the last stored value, or `false` if none. |
| BypassAuth.CreateGuestUser | api/server/utils/bypassAuth.js:41-57 | The guest has `id = _id = "guest"`, role USER, no plugins, and both guest markers set. Its username is `"Guest"`, its name `"Guest User"`, its email `"guest@librechat.local"` and its provider `"bypass"`. Both timestamps are the epoch ISO string. The factory takes no input, so every call gives the same record. |
| RequireJwtAuth.GetTokenProvider | api/server/middleware/requireJwtAuth.js:6-9 | With no cookie header there is no provider. Otherwise it is the parsed `token_provider` cookie, if present. |
| RequireJwtAuth.SelectStrategy | api/server/middleware/requireJwtAuth.js:17-19 | The strategy is `openidJwt` iff the provider is `"openid"` and token reuse is on. Otherwise it is `jwt`. |
| RequireJwtAuth.RunPassportAuth | api/server/middleware/requireJwtAuth.js:16-22 | Without a cookie header, or without token reuse, the strategy is `jwt`. |
| RequireJwtAuth.Decide | api/server/middleware/requireJwtAuth.js:24-45 | Without bypass, the request goes to the strategy's own handling, and the middleware's own code attaches nothing. With bypass, an error is forwarded with the request untouched, and a user is attached with a plain `next()`. With bypass and no user, the guest is attached with `isBypassAuth = true` and a plain `next()`. |
| RequireJwtAuth.RequireJwtAuth | api/server/middleware/requireJwtAuth.js:24-45 | The cache is left as an unforced check leaves it, so a fresh cache is untouched. A fresh cached `false` hands the unchanged request to the selected strategy. A fresh cached `true` with no user attaches the guest and calls `next()`. If the configuration read fails, the strategy decides iff the stored value is not `true`. After a successful reload of a stale cache, the strategy decides iff the configuration does not enable bypass. A verification error never changes the request. |
| RequireJwtAuth.BypassNeverRejects | api/server/middleware/requireJwtAuth.js:36-43 | Under bypass, every non-error outcome proceeds with a plain `next()` and a user attached. |
| RequireJwtAuth.ErrorNeverBecomesGuest | api/server/middleware/requireJwtAuth.js:31-34 | A verification error never changes the request. Under bypass it reaches `next(err)`. |
| RequireJwtAuth.GuestOnlyUnderBypass | api/server/middleware/requireJwtAuth.js:27-43 | The middleware's own code writes `req.user` only under bypass and without an error. (The strategy's default handling, not modelled, may still set it.) `isBypassAuth` changes only under bypass with no user, and then the attached user is exactly the guest record. |
| RequireJwtAuth.GuestAdmittedWhenConfigured | api/server/middleware/requireJwtAuth.js:24-44 | With a stale or empty cache, a configuration with bypass on and a request with no credentials lead to `next()` with the guest attached. Inside the 60 s window the configuration is not read, and the cached flag decides instead (see `RequireJwtAuth.RequireJwtAuth`). |
| RequireJwtAuth.StrategyDecidesWhenNotConfigured | api/server/middleware/requireJwtAuth.js:25-29 | With a stale or empty cache, a configuration with bypass off hands the unchanged request to the selected strategy. Inside the 60 s window the cached flag decides instead. |
| OptionalJwtAuth.SelectStrategy | api/server/middleware/optionalJwtAuth.js:28-32 | `openidJwt` is chosen only with a cookie header and token reuse on. |
| OptionalJwtAuth.Callback | api/server/middleware/optionalJwtAuth.js:13-26 | An error gives `next(err)` with the request unchanged. A user is attached whatever the flag. No user attaches the guest and the marker under bypass, and changes nothing otherwise. There is never a rejection. |
| OptionalJwtAuth.OptionalJwtAuth | api/server/middleware/optionalJwtAuth.js:8-33 | The cache is threaded as by an unforced check, and a fresh cache is untouched. The outcome never falls back to the strategy's own handling. A verified user is attached and an error reaches `next(err)`, whatever the flag. With no user, a fresh cached `true` attaches the marked guest. A failed read with no stored `true` passes the unchanged request to `next()`. After a successful reload of a stale cache with no user, the marker is set iff the configuration enables bypass or it was already set. |
| OptionalJwtAuth.StrategyAgreesWithRequired | api/server/middleware/optionalJwtAuth.js:9-32 | Both middlewares choose the same strategy for every cookie and flag. |
| OptionalJwtAuth.AgreesWithRequiredUnderBypass | api/server/middleware/optionalJwtAuth.js:13-26 | With bypass on, the optional callback and the required callback give the same request and continuation. |
| OptionalJwtAuth.MiddlewaresAgree | api/server/middleware/optionalJwtAuth.js:8-33 | For every cache state, time, configuration read, request and verification, both middlewares leave the same cache. Whenever the required one does not hand the request to the strategy, both give the same request and continuation. |
| OptionalJwtAuth.NeverBlocks | api/server/middleware/optionalJwtAuth.js:13-26 | The outcome is a plain `next()` iff verification did not error. The bypass marker appears only under bypass, together with the guest. |
| Headers.SetAcceptLanguageHeader | packages/data-provider/src/headers-helpers.ts:3-5 | `Accept-Language` becomes the value, and every other header is unchanged. |
| Headers.SetTokenHeader | packages/data-provider/src/headers-helpers.ts:7-14 | A null or empty token removes `Authorization`. Any other token sets it to `"Bearer " + token`. No other header changes. |
| Headers.TokenRoundTrip | packages/data-provider/src/headers-helpers.ts:13 | Reading the Bearer credentials back gives the token that was set, and nothing after a clear. |
| Headers.SetTokenIdempotent | packages/data-provider/src/headers-helpers.ts:7-14 | Setting the same token twice equals setting it once. |
| Headers.SetTokenLastWins | packages/data-provider/src/headers-helpers.ts:7-14 | Of two successive settings, the later one alone determines the headers. |
| Headers.HelpersCommute | packages/data-provider/src/headers-helpers.ts:3-14 | The two helpers commute. |
| StartupConfig.OnlyLiteralTrueEnablesBypass | client/src/hooks/AuthContext.tsx:46 | Bypass is on iff `interface.bypassAuth` is exactly `true`. A missing configuration or section means off, and so do truthy look-alikes. |
| AuthContext.SetUserContext | client/src/hooks/AuthContext.tsx:66-92 | User, token, header and flag are replaced together, and the stored logout redirect is cleared. A stored redirect wins over the supplied one. No redirect means no navigation. `http://` and `https://` targets are full-page changes. Any other target is an in-app replace. |
| AuthContext.Login | client/src/hooks/AuthContext.tsx:153-155 | Login issues the login request and changes nothing else. |
| AuthContext.OnLoginSuccess | client/src/hooks/AuthContext.tsx:96-105 | A pending second factor navigates to `/login/2fa?tempToken=…` with the state unchanged. Otherwise the client is authenticated with the response's user and token, and goes to `/c/new` unless a logout redirect is stored. A stored redirect is followed instead and used up. Only the `Authorization` header changes, and the bypass guard is kept. |
| AuthContext.OnLoginError | client/src/hooks/AuthContext.tsx:106-110 | A login error replaces the location with `/login` and keeps the state. |
| AuthContext.Logout | client/src/hooks/AuthContext.tsx:133-146 | In bypass mode logout is a no-op: no request and no state change. Otherwise it stores a non-empty redirect and issues the logout request. |
| AuthContext.OnLogoutSuccess | client/src/hooks/AuthContext.tsx:113-120 | The client is signed out: no user, no token, not authenticated, and no `Authorization` header. Without a stored redirect it goes to the server's redirect, or `/login`. A stored redirect is followed instead and used up. Only the `Authorization` header changes, and the bypass guard is kept. |
| AuthContext.OnLogoutError | client/src/hooks/AuthContext.tsx:121-129 | A logout error also signs the client out. Without a stored redirect it goes to `/login`. A stored redirect is followed instead and used up. Only the `Authorization` header changes, and the bypass guard is kept. |
| AuthContext.SilentRefresh | client/src/hooks/AuthContext.tsx:157-173 | A refresh request is issued iff bypass is off, the configuration has loaded, and test mode is off. |
| AuthContext.OnRefreshSuccess | client/src/hooks/AuthContext.tsx:174-185 | A non-empty token authenticates the client with it. It then stays put unless a logout redirect is stored, which it follows and uses up. Only the `Authorization` header changes, and the bypass guard is kept. Otherwise the state is kept, and the client navigates to `/login` iff not in test mode. |
| AuthContext.OnRefreshError | client/src/hooks/AuthContext.tsx:186-192 | A refresh error keeps the state. It navigates to `/login` iff not in test mode. |
| AuthContext.UserQueryEnabled | client/src/hooks/AuthContext.tsx:148-151 | The user query runs only outside bypass mode, after the configuration has loaded, and with a non-empty token. |
| AuthContext.AuthFlow | client/src/hooks/AuthContext.tsx:196-235 | Bypass mode and a loading configuration skip the flow entirely. Otherwise query data becomes the user, with the rest of the state unchanged. A query error without data replaces the location with `/login`; nothing else navigates. A refresh is requested iff the flow runs, test mode is off, and the token is missing or the client is unauthenticated. The flow never changes the token or the flag. |
| AuthContext.InitBypass | client/src/hooks/AuthContext.tsx:237-262 | The first time bypass is seen, the local guest (`id "guest"`, username `"Guest"`, email `"guest@localhost"`, role `"user"`, provider `"local"`) is signed in with token `"bypass-auth-token"`, sent as a Bearer credential. No other header changes. Once initialised, or without bypass, nothing changes. |
| AuthContext.InitBypassAtMostOnce | client/src/hooks/AuthContext.tsx:239-241 | After initialisation, an immediately repeated attempt with any configuration changes nothing. `GuardSurvivesEvents` extends this across the other events. |
| AuthContext.GuardSurvivesEvents | client/src/hooks/AuthContext.tsx:237-241 | The initialisation guard is set only by initialisation: every other event keeps it. So after a sign-out, whether the logout succeeded or failed, a later initialisation does not sign the guest in again. |
| AuthContext.BypassShortCircuits | client/src/hooks/AuthContext.tsx:133-208 | In bypass mode, logout, silent refresh and the normal auth flow issue nothing and change nothing. The user query is disabled. |
| AuthContext.BypassStartup | client/src/hooks/AuthContext.tsx:237-262 | From the initial state, a configuration with bypass on signs in the guest. No refresh or user query follows. |
| AuthContext.LogoutRedirectWins | client/src/hooks/AuthContext.tsx:77-79 | After a logout with a redirect, the success or error answer navigates to that redirect, whatever the server suggested. The stored redirect is then consumed. |
| AuthContext.LoginSettlesSession | client/src/hooks/AuthContext.tsx:95-110 | After a login without a second factor that returns a token, the auth flow issues no refresh, the user query runs, and the headers carry the token. A pending second factor, or a login error, leaves the auth flow exactly as before. |
| AuthContext.RefreshSignsIn | client/src/hooks/AuthContext.tsx:174-178 | A refresh with a token authenticates the client. The headers then carry that token. |
| ChatHeader.EffectiveInterface | client/src/components/Chat/Header.tsx:27-30 | A missing configuration or interface section falls back to the defaults. Otherwise the configured section is used. |
| ChatHeader.ShowAccountSettingsInHeader | client/src/components/Chat/Header.tsx:32-37 | Account settings appear in the header only when chat history is disabled, `accountSettings` is not exactly `false`, and bypass is off. `HeaderOffersOneAccountControl` shows that they do appear then. |
| ChatHeader.ShowLogoutButton | client/src/components/Chat/Header.tsx:33-39 | The logout button is eligible only when `accountSettings` is exactly `false` and bypass is off. `LogoutWhenSettingsDisabled` shows that it does render then. |
| ChatHeader.Items | client/src/components/Chat/Header.tsx:74-124 | Account settings render exactly when eligible. The logout button renders exactly when eligible: its extra `!showAccountSettingsInHeader` guard never fires. Bookmarks and multi-conversation controls follow their access rights. |
| ChatHeader.BypassHidesAccountControls | client/src/components/Chat/Header.tsx:34-39 | In bypass mode, neither account settings nor the logout button renders. |
| ChatHeader.ControlsExclusive | client/src/components/Chat/Header.tsx:32-39 | Account settings and the logout button never both render, nor do account settings and the temporary-chat toggle. |
| ChatHeader.HeaderOffersOneAccountControl | client/src/components/Chat/Header.tsx:32-39 | With chat history disabled and bypass off, exactly one account control renders: the settings iff `accountSettings` is not exactly `false`, and the logout button otherwise. |
| ChatHeader.LogoutWhenSettingsDisabled | client/src/components/Chat/Header.tsx:33-39 | With `accountSettings` exactly `false` and bypass off, the logout button renders and the account settings do not. |
| ChatHeader.ItemConditions | client/src/components/Chat/Header.tsx:74-85 | The temporary chat renders iff `disableChatHistory !== true`, and the model selector iff `modelSelect !== false`. The presets menu renders iff `presets === true` and `modelSelect` is truthy, so with `modelSelect` unset the selector shows without the presets menu. |
| ChatHeader.BypassAgreesWithContext | client/src/components/Chat/Header.tsx:27-34 | With an interface section present, the header's bypass flag equals the auth context's. |
| Root.Render | client/src/routes/Root.tsx:85-118 | When the full tree renders, the navigation panels show iff chat history is not exactly disabled. The terms modal is mounted iff modal acceptance is exactly `true`. |
| Root.RenderCases | client/src/routes/Root.tsx:85-100 | Nothing renders iff none of authenticated, bypass or loading holds. The loading screen shows iff loading, unauthenticated and not bypassed. The full tree renders iff authenticated or bypassed, even while loading. |
| Root.BypassGuestSeesApp | client/src/routes/Root.tsx:85-100 | Once the context initialises the bypass guest, the full tree renders on the guest's authentication alone. This holds for any configuration or loading state the root sees later. |
| Root.TermsQueryEnabled | client/src/routes/Root.tsx:42-44 | The terms query runs only when authenticated and `termsOfService.modalAcceptance` is exactly `true`. `BypassGuestGetsTermsQuery` and `SignInAndOutGateTerms` show that it does run then. |
| Root.BypassGuestGetsTermsQuery | client/src/routes/Root.tsx:42-44 | Once the bypass guest is initialised, a configuration asking for modal acceptance starts the terms query. |
| Root.SignInAndOutGateTerms | client/src/routes/Root.tsx:42-44 | After a refresh that returns a token, the terms query runs iff the configuration asks for modal acceptance. After a logout, whether it succeeded or failed, the query never runs. |
| Root.OnTermsData | client/src/routes/Root.tsx:66-70 | Arriving terms data opens the modal iff the terms are not accepted. No data leaves it unchanged. |
| Root.AcceptTerms | client/src/routes/Root.tsx:72-74 | Accepting closes the modal. |
| Root.AcceptedTermsStayClosed | client/src/routes/Root.tsx:66-74 | After accepting, the modal stays closed iff no terms data arrives or the arriving data reports the terms as accepted. |
| Root.DeclineTerms | client/src/routes/Root.tsx:76-79 | Declining closes the modal and calls logout with `/login?redirect=false`. |
| Root.DeclineInBypassKeepsSession | client/src/routes/Root.tsx:76-79 | In bypass mode, declining leaves the auth state unchanged and issues no request. |
| Root.DeclineSignsOut | client/src/routes/Root.tsx:76-79 | Outside bypass mode, declining issues the logout request. The logout answer, whether success or error, then signs the client out and replaces the location with `/login?redirect=false`. |

## Left out

- Token-verification strategy internals, cookie parsing and environment-flag parsing are inputs: a parsed cookie map, a token-reuse boolean, and a verification report per strategy.
- RequireJwtAuth.Decide: without bypass, the strategy's default handling is not visible and is modelled only as `StrategyDefault(strategy)`. That handling may attach the verified user and call `next()`, call `next(err)` on an error, or answer 401 when there is no user. The model states none of these three paths.
- Reading the application configuration and the clock are parameters (`ConfigLoad`, `now`).
- BypassAuth.ShouldBypassAuth: one clock reading `now` serves both as the freshness test (bypassAuth.js:32) and as the stored `lastChecked`. The source reads the clock again after `await getAppConfig()` (bypassAuth.js:14, 19), so the stored time can be later than the time tested.
- Logging (`logger`, `console.log`) is omitted.
- Concurrent duplicate reloads of the cache are not modelled. Each reload is last-write-wins over the same source, so sequential calls (`Serve`) cover the observable answers.
- React mechanics are omitted: effect scheduling and dependencies, re-renders, memoisation, the `tokenUpdated` window event, and localStorage. The 50 ms debounce of `setUserContext` is also dropped, so each context update applies immediately.
- The client error message (`setError`, and `doSetError` through `useTimeout`) is not tracked. `useTimeout` is not part of this model.
- The role queries (`useGetRole`) are not modelled.
- The client guest's `createdAt`/`updatedAt` use the current time, so `ClientUser` has no timestamps.
- `SystemRoles` comes from the shared data-provider package, which is not part of this model. The server guest's role is the abstract `Role.SystemUser`.
- JSX layout and small-screen placement are omitted. Both header layouts use the same render conditions, so `Items` covers them once.
- The startup-configuration query wrapper (`queries.ts`) is left out. Its only logic is the `enabled` option, and the model takes the configuration and its loading flag as inputs.
- JavaScript `NaN` and floating-point numbers are not modelled. `JsValue` numbers are integers.

=== FILE: auth_context.dfy ===
/** The client authentication context as a state machine. Each event (a
    user action, a mutation outcome, a configuration change) is a pure
    function from the current state to the next state, the navigation it
    performs and the network request it issues. */
module AuthContext {
  import opened Values
  import opened Headers
  import StartupConfig

  /** A user record as the client holds it. Timestamps are not modelled. */
  datatype ClientUser = ClientUser(
    id: string,
    username: string,
    email: string,
    name: string,
    avatar: string,
    role: string,
    provider: string,
    plugins: seq<string>)

  /** The context's state: the user, the token, the authenticated flag, the
      HTTP client's default headers, a logout redirect waiting for the next
      `setUserContext`, and the one-shot bypass initialisation guard. */
  datatype AuthState = AuthState(
    user: Option<ClientUser>,
    token: Option<string>,
    isAuthenticated: bool,
    headers: HeaderMap,
    logoutRedirect: Option<string>,
    bypassInitialized: bool)

  const InitialState: AuthState := AuthState(None, None, false, map[], None, false)

  /** `navigate(path, { replace })` or a full-page `window.location.href = url`. */
  datatype Navigation = Stay | Navigate(path: string, replace: bool) | Assign(url: string)

  /** The network request an event issues, if any. */
  datatype Outgoing = NoRequest | LoginRequest | LogoutRequest | RefreshRequest

  datatype Step = Step(state: AuthState, nav: Navigation, request: Outgoing)

  /** The argument of `setUserContext`. */
  datatype UserContext = UserContext(
    token: Option<string>, isAuthenticated: bool, user: Option<ClientUser>, redirect: Option<string>)

  /** What the context knows when an event fires: the bypass flag derived
      from the startup configuration, whether that configuration is still
      loading, and whether the provider runs in test mode. */
  datatype Env = Env(bypassAuth: bool, configLoading: bool, testMode: bool)

  /** The body of a login response. */
  datatype LoginResponse = LoginResponse(
    user: Option<ClientUser>, token: Option<string>, twoFAPending: bool, tempToken: string)

  /** The body of a refresh response. */
  datatype RefreshResponse = RefreshResponse(user: Option<ClientUser>, token: Option<string>)

  /** The current-user query as the normal auth flow sees it. */
  datatype UserQuery = UserQuery(data: Option<ClientUser>, isError: bool)

  const LoginPath: string := "/login"
  const NewChatPath: string := "/c/new"
  const TwoFactorPath: string := "/login/2fa?tempToken="
  const BypassToken: string := "bypass-auth-token"

  /** The local guest identity manufactured in bypass mode. */
  const ClientGuest: ClientUser :=
    ClientUser("guest", "Guest", "guest@localhost", "Guest User", "", "user", "local", [])

  /** A redirect that leaves the application. */
  predicate IsAbsoluteUrl(s: string) {
    HasPrefix(s, "http://") || HasPrefix(s, "https://")
  }

  /** `nav` goes to `target`, by either kind of navigation. */
  predicate RedirectsTo(nav: Navigation, target: string) {
    nav == Assign(target) || nav == Navigate(target, true)
  }

  /** `logoutRedirectRef.current || redirect` */
  function FinalRedirect(stored: Option<string>, supplied: Option<string>): Option<string> {
    if Filled(stored) then stored else supplied
  }

  /** Applies a user context: user, token, header and flag are replaced
      together, the stored logout redirect (which takes precedence over the
      supplied one) is consumed, and the final redirect is followed. */
  function SetUserContext(s: AuthState, ctx: UserContext): (r: Step)
    ensures r.request == NoRequest
    ensures r.state == s.(user := ctx.user, token := ctx.token, isAuthenticated := ctx.isAuthenticated,
                          headers := SetTokenHeader(s.headers, ctx.token), logoutRedirect := None)
    ensures Filled(s.logoutRedirect) ==> RedirectsTo(r.nav, s.logoutRedirect.value)
    ensures !Filled(s.logoutRedirect) && ctx.redirect.Some? ==> RedirectsTo(r.nav, ctx.redirect.value)
    ensures r.nav == Stay <==> !Filled(s.logoutRedirect) && ctx.redirect.None?
    ensures r.nav.Assign? ==> IsAbsoluteUrl(r.nav.url)
    ensures r.nav.Navigate? ==> !IsAbsoluteUrl(r.nav.path) && r.nav.replace
  {
    var state := s.(user := ctx.user, token := ctx.token, isAuthenticated := ctx.isAuthenticated,
                    headers := SetTokenHeader(s.headers, ctx.token), logoutRedirect := None);
    var nav :=
      match FinalRedirect(s.logoutRedirect, ctx.redirect)
      case None => Stay
      case Some(target) => if IsAbsoluteUrl(target) then Assign(target) else Navigate(target, true);
    Step(state, nav, NoRequest)
  }

  /** `login(data)`: issues the login request; not guarded by bypass. */
  function Login(s: AuthState): (r: Step)
    ensures r.state == s && r.nav == Stay && r.request == LoginRequest
  {
    Step(s, Stay, LoginRequest)
  }

  /** A successful login response. */
  function OnLoginSuccess(s: AuthState, data: LoginResponse): (r: Step)
    ensures r.request == NoRequest
    ensures data.twoFAPending ==> r.state == s && r.nav == Navigate(TwoFactorPath + data.tempToken, true)
    ensures !data.twoFAPending ==> r.state.isAuthenticated && r.state.token == data.token && r.state.user == data.user
    ensures !data.twoFAPending && !Filled(s.logoutRedirect) ==> r.nav == Navigate(NewChatPath, true)
    ensures !data.twoFAPending && Filled(s.logoutRedirect) ==> RedirectsTo(r.nav, s.logoutRedirect.value)
    ensures !data.twoFAPending ==> r.state.logoutRedirect.None?
    ensures SameExcept(s.headers, r.state.headers, AuthorizationKey)
    ensures r.state.bypassInitialized == s.bypassInitialized
  {
    if data.twoFAPending then Step(s, Navigate(TwoFactorPath + data.tempToken, true), NoRequest)
    else SetUserContext(s, UserContext(data.token, true, data.user, Some(NewChatPath)))
  }

  /** A failed login: back to the login page, state unchanged. */
  function OnLoginError(s: AuthState): (r: Step)
    ensures r == Step(s, Navigate(LoginPath, true), NoRequest)
  {
    Step(s, Navigate(LoginPath, true), NoRequest)
  }

  /** `logout(redirect)`: a no-op in bypass mode; otherwise remembers a
      non-empty redirect and issues the logout request. */
  function Logout(s: AuthState, env: Env, redirect: Option<string>): (r: Step)
    ensures r.nav == Stay
    ensures env.bypassAuth <==> r.request == NoRequest
    ensures env.bypassAuth ==> r.state == s
    ensures !env.bypassAuth ==> r.request == LogoutRequest
    ensures !env.bypassAuth ==> r.state == s.(logoutRedirect := FinalRedirect(redirect, s.logoutRedirect))
  {
    if env.bypassAuth then Step(s, Stay, NoRequest)
    else
      var stored := if Filled(redirect) then redirect else s.logoutRedirect;
      Step(s.(logoutRedirect := stored), Stay, LogoutRequest)
  }

  /** No user, no token, not authenticated, no `Authorization` header. */
  predicate SignedOut(s: AuthState) {
    s.user.None? && s.token.None? && !s.isAuthenticated && AuthorizationKey !in s.headers
  }

  /** A successful logout response, carrying an optional redirect. */
  function OnLogoutSuccess(s: AuthState, redirect: Option<string>): (r: Step)
    ensures SignedOut(r.state)
    ensures r.request == NoRequest
    ensures !Filled(s.logoutRedirect) ==> RedirectsTo(r.nav, redirect.GetOr(LoginPath))
    ensures Filled(s.logoutRedirect) ==> RedirectsTo(r.nav, s.logoutRedirect.value)
    ensures r.state.logoutRedirect.None?
    ensures SameExcept(s.headers, r.state.headers, AuthorizationKey)
    ensures r.state.bypassInitialized == s.bypassInitialized
  {
    SetUserContext(s, UserContext(None, false, None, Some(redirect.GetOr(LoginPath))))
  }

  /** A failed logout still signs the client out. */
  function OnLogoutError(s: AuthState): (r: Step)
    ensures SignedOut(r.state)
    ensures r.request == NoRequest
    ensures !Filled(s.logoutRedirect) ==> r.nav == Navigate(LoginPath, true)
    ensures Filled(s.logoutRedirect) ==> RedirectsTo(r.nav, s.logoutRedirect.value)
    ensures r.state.logoutRedirect.None?
    ensures SameExcept(s.headers, r.state.headers, AuthorizationKey)
    ensures r.state.bypassInitialized == s.bypassInitialized
  {
    SetUserContext(s, UserContext(None, false, None, Some(LoginPath)))
  }

  /** `silentRefresh()`: skipped in bypass mode, while the configuration
      loads, and in test mode. */
  function SilentRefresh(s: AuthState, env: Env): (r: Step)
    ensures r.state == s && r.nav == Stay
    ensures r.request == RefreshRequest <==> !env.bypassAuth && !env.configLoading && !env.testMode
    ensures r.request != RefreshRequest ==> r.request == NoRequest
  {
    var issue := !env.bypassAuth && !env.configLoading && !env.testMode;
    Step(s, Stay, if issue then RefreshRequest else NoRequest)
  }

  /** A successful refresh response (`None` when the body is empty). */
  function OnRefreshSuccess(s: AuthState, data: Option<RefreshResponse>, testMode: bool): (r: Step)
    ensures r.request == NoRequest
    ensures data.Some? && Filled(data.value.token) ==>
              r.state.isAuthenticated && r.state.token == data.value.token && r.state.user == data.value.user
    ensures data.Some? && Filled(data.value.token) ==>
              (r.nav == Stay <==> !Filled(s.logoutRedirect))
              && (Filled(s.logoutRedirect) ==> RedirectsTo(r.nav, s.logoutRedirect.value))
              && r.state.logoutRedirect.None?
    ensures SameExcept(s.headers, r.state.headers, AuthorizationKey)
    ensures r.state.bypassInitialized == s.bypassInitialized
    ensures !(data.Some? && Filled(data.value.token)) ==> r.state == s
    ensures !(data.Some? && Filled(data.value.token)) ==> (r.nav == Stay <==> testMode)
    ensures !(data.Some? && Filled(data.value.token)) && !testMode ==> r.nav == Navigate(LoginPath, false)
  {
    var token := if data.Some? then data.value.token else None;
    var user := if data.Some? then data.value.user else None;
    if Filled(token) then SetUserContext(s, UserContext(token, true, user, None))
    else if testMode then Step(s, Stay, NoRequest)
    else Step(s, Navigate(LoginPath, false), NoRequest)
  }

  /** A failed refresh: to the login page unless in test mode. */
  function OnRefreshError(s: AuthState, testMode: bool): (r: Step)
    ensures r.state == s && r.request == NoRequest
    ensures r.nav == Stay <==> testMode
    ensures !testMode ==> r.nav == Navigate(LoginPath, false)
  {
    if testMode then Step(s, Stay, NoRequest) else Step(s, Navigate(LoginPath, false), NoRequest)
  }

  /** The current-user query runs only outside bypass mode, once the
      configuration has loaded, and with a non-empty token. */
  function UserQueryEnabled(env: Env, token: Option<string>): (enabled: bool)
    ensures enabled ==> !env.bypassAuth && !env.configLoading
    ensures enabled ==> token.Some? && |token.value| > 0
  {
    !env.bypassAuth && !env.configLoading && Filled(token)
  }

  /** The normal auth flow, run whenever its inputs change: skipped in bypass
      mode and while the configuration loads; otherwise adopts the queried
      user, leaves for the login page on a query error, and refreshes when
      there is no token or the client is not authenticated. */
  function AuthFlow(s: AuthState, env: Env, query: UserQuery): (r: Step)
    ensures env.bypassAuth || env.configLoading ==> r == Step(s, Stay, NoRequest)
    ensures r.request == RefreshRequest <==>
              !env.bypassAuth && !env.configLoading && !env.testMode && (!Filled(s.token) || !s.isAuthenticated)
    ensures r.state.token == s.token && r.state.isAuthenticated == s.isAuthenticated
    ensures !env.bypassAuth && !env.configLoading && query.data.Some? ==> r.state == s.(user := query.data)
    ensures !env.bypassAuth && !env.configLoading && query.data.None? ==> r.state == s
    ensures !env.bypassAuth && !env.configLoading && query.data.None? && query.isError ==>
              r.nav == Navigate(LoginPath, true)
    ensures !(query.data.None? && query.isError) ==> r.nav == Stay
  {
    if env.bypassAuth || env.configLoading then Step(s, Stay, NoRequest)
    else
      var state := if query.data.Some? then s.(user := query.data) else s;
      var nav := if query.data.None? && query.isError then Navigate(LoginPath, true) else Stay;
      var request := if !Filled(s.token) || !s.isAuthenticated then SilentRefresh(state, env).request else NoRequest;
      Step(state, nav, request)
  }

  /** Bypass initialisation: once, when bypass is on and the configuration
      has arrived, the context signs in the local guest with a placeholder
      token, without any request. */
  function InitBypass(s: AuthState, config: Option<StartupConfig.Config>): (r: AuthState)
    ensures r.bypassInitialized == (s.bypassInitialized || StartupConfig.BypassAuth(config))
    ensures s.bypassInitialized || !StartupConfig.BypassAuth(config) ==> r == s
    ensures !s.bypassInitialized && StartupConfig.BypassAuth(config) ==>
              && r.isAuthenticated
              && r.token == Some(BypassToken)
              && r.user == Some(ClientGuest)
              && TokenOf(r.headers) == Some(BypassToken)
              && r.logoutRedirect == s.logoutRedirect
    ensures SameExcept(s.headers, r.headers, AuthorizationKey)
  {
    if StartupConfig.BypassAuth(config) && !s.bypassInitialized then
      TokenRoundTrip(s.headers, Some(BypassToken));
      s.(user := Some(ClientGuest), isAuthenticated := true, token := Some(BypassToken),
         headers := SetTokenHeader(s.headers, Some(BypassToken)), bypassInitialized := true)
    else s
  }

  /** Bypass initialisation runs at most once: after it has run, any later
      attempt, with any configuration, changes nothing. */
  lemma InitBypassAtMostOnce(s: AuthState, c1: Option<StartupConfig.Config>, c2: Option<StartupConfig.Config>)
    requires InitBypass(s, c1).bypassInitialized
    ensures InitBypass(InitBypass(s, c1), c2) == InitBypass(s, c1)
  {
  }

  /** The initialisation guard is the context's alone: no other event
      touches it, so once the guest has been signed in, no sign-out, login,
      refresh or auth-flow step lets a later initialisation sign it in again. */
  lemma GuardSurvivesEvents(
    s: AuthState, env: Env, ctx: UserContext, login: LoginResponse, redirect: Option<string>,
    refresh: Option<RefreshResponse>, query: UserQuery, config: Option<StartupConfig.Config>)
    requires s.bypassInitialized
    ensures SetUserContext(s, ctx).state.bypassInitialized
    ensures Login(s).state.bypassInitialized
    ensures OnLoginSuccess(s, login).state.bypassInitialized
    ensures OnLoginError(s).state.bypassInitialized
    ensures Logout(s, env, redirect).state.bypassInitialized
    ensures OnLogoutSuccess(s, redirect).state.bypassInitialized
    ensures OnLogoutError(s).state.bypassInitialized
    ensures SilentRefresh(s, env).state.bypassInitialized
    ensures OnRefreshSuccess(s, refresh, env.testMode).state.bypassInitialized
    ensures OnRefreshError(s, env.testMode).state.bypassInitialized
    ensures AuthFlow(s, env, query).state.bypassInitialized
    ensures InitBypass(OnLogoutSuccess(s, redirect).state, config) == OnLogoutSuccess(s, redirect).state
    ensures InitBypass(OnLogoutError(s).state, config) == OnLogoutError(s).state
  {
  }

  /** In bypass mode every network path of the context is short-circuited:
      logout, silent refresh, the normal auth flow and the user query. */
  lemma BypassShortCircuits(s: AuthState, env: Env, redirect: Option<string>, query: UserQuery)
    requires env.bypassAuth
    ensures Logout(s, env, redirect) == Step(s, Stay, NoRequest)
    ensures SilentRefresh(s, env).request == NoRequest
    ensures AuthFlow(s, env, query) == Step(s, Stay, NoRequest)
    ensures !UserQueryEnabled(env, s.token)
  {
  }

  /** Startup with bypass on: the first configuration that reports it signs
      the guest in, and the auth flow then issues nothing. */
  lemma BypassStartup(config: Option<StartupConfig.Config>, testMode: bool, query: UserQuery)
    requires StartupConfig.BypassAuth(config)
    ensures InitBypass(InitialState, config).isAuthenticated
    ensures InitBypass(InitialState, config).user == Some(ClientGuest)
    ensures AuthFlow(InitBypass(InitialState, config), Env(true, false, testMode), query).request == NoRequest
    ensures !UserQueryEnabled(Env(true, false, testMode), InitBypass(InitialState, config).token)
  {
  }

  /** A logout with a redirect, followed by the server's answer, goes to the
      redirect the caller asked for, whatever the server suggested. */
  lemma LogoutRedirectWins(s: AuthState, env: Env, redirect: Option<string>, serverRedirect: Option<string>)
    requires !env.bypassAuth && Filled(redirect)
    ensures RedirectsTo(OnLogoutSuccess(Logout(s, env, redirect).state, serverRedirect).nav, redirect.value)
    ensures OnLogoutSuccess(Logout(s, env, redirect).state, serverRedirect).state.logoutRedirect.None?
    ensures RedirectsTo(OnLogoutError(Logout(s, env, redirect).state).nav, redirect.value)
  {
  }

  /** A refresh that succeeds with a token authenticates the client with
      that token and sends it as a Bearer credential. */
  lemma RefreshSignsIn(s: AuthState, data: RefreshResponse, testMode: bool)
    requires Filled(data.token)
    ensures OnRefreshSuccess(s, Some(data), testMode).state.isAuthenticated
    ensures TokenOf(OnRefreshSuccess(s, Some(data), testMode).state.headers) == data.token
  {
    TokenRoundTrip(s.headers, data.token);
  }

  /** A login without a second factor that returns a token leaves a settled
      session: the auth flow then issues no refresh, the user query runs,
      and the headers carry the token. A pending second factor changes
      nothing the auth flow reads. */
  lemma LoginSettlesSession(s: AuthState, data: LoginResponse, env: Env, query: UserQuery)
    requires !env.bypassAuth && !env.configLoading
    ensures !data.twoFAPending && Filled(data.token) ==>
              && AuthFlow(OnLoginSuccess(s, data).state, env, query).request == NoRequest
              && UserQueryEnabled(env, OnLoginSuccess(s, data).state.token)
              && TokenOf(OnLoginSuccess(s, data).state.headers) == data.token
    ensures data.twoFAPending ==>
              AuthFlow(OnLoginSuccess(s, data).state, env, query) == AuthFlow(s, env, query)
    ensures AuthFlow(OnLoginError(s).state, env, query) == AuthFlow(s, env, query)
  {
    TokenRoundTrip(s.headers, data.token);
  }
}

=== FILE: bypass_auth.dfy ===
/** The process-wide bypass-auth cache and the guest-user factory.

    The cache is a record threaded through pure functions: every call takes
    the current state, the clock reading `now` (milliseconds) and what the
    configuration source would produce if consulted, and returns its answer
    together with the next state and whether the source was consulted. */
module BypassAuth {
  import opened Values
  import opened Http

  /** Freshness window of a loaded value, in milliseconds. */
  const CacheTtlMs: int := 60 * 1000

  /** `value == None` means "never loaded successfully". */
  datatype CacheState = CacheState(value: Option<bool>, lastChecked: int)

  /** The state at process start and after an explicit clear. */
  const InitialState: CacheState := CacheState(None, 0)

  /** The part of the application configuration the loader reads. */
  datatype InterfaceConfig = InterfaceConfig(bypassAuth: JsValue)
  datatype AppConfig = AppConfig(interfaceConfig: Option<InterfaceConfig>)

  /** One read of the application configuration: a (possibly absent)
      configuration, or the error it threw. */
  type ConfigLoad = Result<Option<AppConfig>, string>

  /** One answer of the cache: the flag returned, the state left behind, and
      whether the configuration source was consulted. */
  datatype Answer = Answer(result: bool, state: CacheState, loaded: bool)

  /** `appConfig?.interfaceConfig?.bypassAuth === true` */
  predicate EnabledIn(config: Option<AppConfig>) {
    config.Some? && config.value.interfaceConfig.Some?
    && IsTrue(config.value.interfaceConfig.value.bypassAuth)
  }

  /** A cached value that may be returned without consulting the source. */
  predicate IsFresh(st: CacheState, now: int) {
    st.value.Some? && now - st.lastChecked < CacheTtlMs
  }

  /** Reads the configuration. On success the state records the flag and the
      time; on failure the state is kept and the last value (or `false`)
      is returned. */
  function LoadBypassAuthState(st: CacheState, now: int, load: ConfigLoad): (a: Answer)
    ensures a.loaded
    ensures load.Success? ==> a.state == CacheState(Some(a.result), now)
    ensures load.Success? ==> (a.result <==> EnabledIn(load.value))
    ensures load.Failure? ==> a.state == st && a.result == st.value.GetOr(false)
  {
    match load
    case Success(config) =>
      var enabled := EnabledIn(config);
      Answer(enabled, CacheState(Some(enabled), now), true)
    case Failure(_) =>
      Answer(st.value.GetOr(false), st, true)
  }

  /** The cached flag when fresh and not forced; otherwise a reload. */
  function ShouldBypassAuth(st: CacheState, force: bool, now: int, load: ConfigLoad): (a: Answer)
    ensures !force && IsFresh(st, now) ==> a == Answer(st.value.value, st, false)
    ensures a.loaded <==> force || !IsFresh(st, now)
    ensures load.Success? && a.loaded ==>
              a.state == CacheState(Some(a.result), now) && (a.result <==> EnabledIn(load.value))
    ensures load.Failure? ==> a.state == st && a.result == st.value.GetOr(false)
  {
    if !force && IsFresh(st, now) then Answer(st.value.value, st, false)
    else LoadBypassAuthState(st, now, load)
  }

  /** Best-effort synchronous read: never consults the source. */
  function GetCachedBypassAuthState(st: CacheState): (b: bool)
    ensures b ==> st.value.Some?
  {
    st.value == Some(true)
  }

  /** Forgets the cached value, so the next check reloads. */
  function ClearBypassAuthCache(): (st: CacheState)
    ensures forall now :: !IsFresh(st, now)
  {
    InitialState
  }

  /** The cached read equals what a check would answer if the configuration
      source failed: `true` only for a stored `true`. */
  lemma CachedIsFailureAnswer(st: CacheState, force: bool, now: int, e: string)
    ensures GetCachedBypassAuthState(st) == ShouldBypassAuth(st, force, now, Failure(e)).result
    ensures ShouldBypassAuth(st, force, now, Failure(e)).state == st
  {
  }

  /** After a clear, the next check consults the source, whatever the time. */
  lemma ClearForcesReload(force: bool, now: int, load: ConfigLoad)
    ensures ShouldBypassAuth(ClearBypassAuthCache(), force, now, load).loaded
    ensures load.Failure? ==> !ShouldBypassAuth(ClearBypassAuthCache(), force, now, load).result
  {
  }

  /** A failed reload leaves a stale state stale: any later check retries. */
  lemma FailedReloadRetries(st: CacheState, now: int, e: string, later: int, force: bool, load: ConfigLoad)
    requires !IsFresh(st, now)
    requires now <= later
    ensures ShouldBypassAuth(ShouldBypassAuth(st, false, now, Failure(e)).state, force, later, load).loaded
  {
  }

  /** One invocation of `shouldBypassAuth`. */
  datatype Call = Call(force: bool, now: int, load: ConfigLoad)

  /** The answers of a sequence of checks, the final state, and how many of
      them consulted the configuration source. */
  datatype Run = Run(answers: seq<bool>, state: CacheState, loads: nat)

  /** Performs `calls` in order, each seeing the state the previous left. */
  function Serve(st: CacheState, calls: seq<Call>): (r: Run)
    ensures |r.answers| == |calls|
    ensures r.loads <= |calls|
    ensures r.loads == 0 ==> r.state == st
    decreases |calls|
  {
    if calls == [] then Run([], st, 0)
    else
      var a := ShouldBypassAuth(st, calls[0].force, calls[0].now, calls[0].load);
      var rest := Serve(a.state, calls[1..]);
      Run([a.result] + rest.answers, rest.state, (if a.loaded then 1 else 0) + rest.loads)
  }

  /** Unforced checks inside the freshness window of a stored value all
      return that value and never consult the source. */
  lemma {:induction false} FreshWindowServesCachedValue(st: CacheState, calls: seq<Call>)
    requires st.value.Some?
    requires forall i :: 0 <= i < |calls| ==> !calls[i].force && calls[i].now - st.lastChecked < CacheTtlMs
    ensures Serve(st, calls).loads == 0
    ensures Serve(st, calls).state == st
    ensures forall i :: 0 <= i < |calls| ==> Serve(st, calls).answers[i] == st.value.value
    decreases |calls|
  {
    if calls != [] {
      FreshWindowServesCachedValue(st, calls[1..]);
    }
  }

  /** After a successful load at time `t`, unforced checks before `t + 60 s`
      return the loaded value and trigger no further load. */
  lemma LoadThenWindow(st: CacheState, t: int, config: Option<AppConfig>, calls: seq<Call>)
    requires forall i :: 0 <= i < |calls| ==> !calls[i].force && calls[i].now - t < CacheTtlMs
    ensures Serve(st, [Call(true, t, Success(config))] + calls).loads == 1
    ensures forall i :: 0 <= i <= |calls| ==>
              Serve(st, [Call(true, t, Success(config))] + calls).answers[i] == EnabledIn(config)
  {
    var all := [Call(true, t, Success(config))] + calls;
    assert all[1..] == calls;
    var a := ShouldBypassAuth(st, true, t, Success(config));
    FreshWindowServesCachedValue(a.state, calls);
  }

  /** The window after a successful load at `t` is exactly 60 s: an unforced
      check reloads iff it comes at `t + 60 s` or later. */
  lemma LoadThenExpiry(st: CacheState, t: int, config: Option<AppConfig>, later: int, load: ConfigLoad)
    ensures ShouldBypassAuth(ShouldBypassAuth(st, true, t, Success(config)).state, false, later, load).loaded
            <==> later >= t + 60000
  {
  }

  /** While every read of the configuration fails, the state never changes
      and every answer is the last stored value, or `false` if none. */
  lemma {:induction false} FailuresKeepState(st: CacheState, calls: seq<Call>)
    requires forall i :: 0 <= i < |calls| ==> calls[i].load.Failure?
    ensures Serve(st, calls).state == st
    ensures forall i :: 0 <= i < |calls| ==> Serve(st, calls).answers[i] == st.value.GetOr(false)
    decreases |calls|
  {
    if calls != [] {
      FailuresKeepState(st, calls[1..]);
    }
  }

  /** The identifier of the guest identity. */
  const GuestId: string := "guest"

  /** `new Date(0).toISOString()` */
  const EpochIso: string := "1970-01-01T00:00:00.000Z"

  /** The synthetic identity substituted in bypass mode. */
  function CreateGuestUser(): (u: User)
    ensures u.id == GuestId && u.objectId == GuestId
    ensures u.role == SystemUser && u.plugins == []
    ensures u.isGuest && u.isBypassAuth
    ensures u.createdAt == EpochIso && u.updatedAt == EpochIso
    ensures u.username == "Guest" && u.name == "Guest User"
    ensures u.email == "guest@librechat.local" && u.provider == "bypass"
  {
    User(
      id := GuestId,
      objectId := GuestId,
      username := "Guest",
      name := "Guest User",
      email := "guest@librechat.local",
      provider := "bypass",
      role := SystemUser,
      plugins := [],
      createdAt := EpochIso,
      updatedAt := EpochIso,
      isGuest := true,
      isBypassAuth := true)
  }
}

=== FILE: chat_header.dfy ===
/** The render decisions of the chat header: which controls appear for a
    given interface configuration, bypass flag and access rights. Layout
    (small-screen placement, transitions) is not modelled: both layouts use
    the same conditions. */
module ChatHeader {
  import opened Values
  import opened StartupConfig

  /** Which header controls render. */
  datatype HeaderItems = HeaderItems(
    modelSelector: bool,
    presetsMenu: bool,
    bookmarks: bool,
    multiConvo: bool,
    temporaryChat: bool,
    accountSettings: bool,
    logoutButton: bool)

  /** `startupConfig?.interface ?? defaultInterface` */
  function EffectiveInterface(config: Option<Config>, defaults: Interface): (i: Interface)
    ensures InterfaceOf(config).None? ==> i == defaults
    ensures InterfaceOf(config).Some? ==> i == InterfaceOf(config).value
  {
    InterfaceOf(config).GetOr(defaults)
  }

  /** Account settings move to the header when chat history (and with it the
      navigation panel) is disabled, unless they are disabled themselves or
      bypass mode is on. */
  function ShowAccountSettingsInHeader(i: Interface): (show: bool)
    ensures show ==> IsTrue(i.disableChatHistory) && !IsFalse(i.accountSettings) && !IsTrue(i.bypassAuth)
  {
    IsTrue(i.disableChatHistory) && !IsFalse(i.accountSettings) && !IsTrue(i.bypassAuth)
  }

  /** A logout button replaces disabled account settings, except in bypass mode. */
  function ShowLogoutButton(i: Interface): (show: bool)
    ensures show ==> IsFalse(i.accountSettings) && !IsTrue(i.bypassAuth)
  {
    IsFalse(i.accountSettings) && !IsTrue(i.bypassAuth)
  }

  /** The header's controls. */
  function Items(config: Option<Config>, defaults: Interface, hasBookmarks: bool, hasMultiConvo: bool): (h: HeaderItems)
    ensures h.bookmarks == hasBookmarks && h.multiConvo == hasMultiConvo
    ensures h.accountSettings == ShowAccountSettingsInHeader(EffectiveInterface(config, defaults))
    ensures h.logoutButton == ShowLogoutButton(EffectiveInterface(config, defaults))
  {
    var i := EffectiveInterface(config, defaults);
    var accountSettings := ShowAccountSettingsInHeader(i);
    HeaderItems(
      modelSelector := !IsFalse(i.modelSelect),
      presetsMenu := IsTrue(i.presets) && Truthy(i.modelSelect),
      bookmarks := hasBookmarks,
      multiConvo := hasMultiConvo,
      temporaryChat := !IsTrue(i.disableChatHistory),
      accountSettings := accountSettings,
      logoutButton := ShowLogoutButton(i) && !accountSettings)
  }

  /** In bypass mode the header offers neither account settings nor logout. */
  lemma BypassHidesAccountControls(config: Option<Config>, defaults: Interface, b: bool, m: bool)
    requires IsTrue(EffectiveInterface(config, defaults).bypassAuth)
    ensures !Items(config, defaults, b, m).accountSettings
    ensures !Items(config, defaults, b, m).logoutButton
  {
  }

  /** Account settings and the logout button exclude each other, and so do
      account settings and the temporary-chat toggle. */
  lemma ControlsExclusive(config: Option<Config>, defaults: Interface, b: bool, m: bool)
    ensures !(Items(config, defaults, b, m).accountSettings && Items(config, defaults, b, m).logoutButton)
    ensures !(Items(config, defaults, b, m).accountSettings && Items(config, defaults, b, m).temporaryChat)
    ensures !(ShowAccountSettingsInHeader(EffectiveInterface(config, defaults))
              && ShowLogoutButton(EffectiveInterface(config, defaults)))
  {
  }

  /** The temporary-chat toggle appears exactly when chat history is not
      explicitly disabled; the model selector unless explicitly disabled; the
      presets menu only for literal `presets: true` and a truthy
      `modelSelect`, so an unset `modelSelect` shows the selector alone. */
  lemma ItemConditions(config: Option<Config>, defaults: Interface, b: bool, m: bool)
    ensures Items(config, defaults, b, m).temporaryChat
            <==> !IsTrue(EffectiveInterface(config, defaults).disableChatHistory)
    ensures Items(config, defaults, b, m).modelSelector
            <==> EffectiveInterface(config, defaults).modelSelect != Bool(false)
    ensures Items(config, defaults, b, m).presetsMenu ==> Items(config, defaults, b, m).modelSelector
    ensures Items(config, defaults, b, m).presetsMenu
            <==> EffectiveInterface(config, defaults).presets == Bool(true)
                 && Truthy(EffectiveInterface(config, defaults).modelSelect)
    ensures EffectiveInterface(config, defaults).modelSelect == Undefined ==>
              Items(config, defaults, b, m).modelSelector && !Items(config, defaults, b, m).presetsMenu
  {
  }

  /** With chat history disabled and bypass off, the header offers exactly
      one account control: the settings, or the logout button when the
      settings are disabled. */
  lemma HeaderOffersOneAccountControl(config: Option<Config>, defaults: Interface, b: bool, m: bool)
    requires IsTrue(EffectiveInterface(config, defaults).disableChatHistory)
    requires !IsTrue(EffectiveInterface(config, defaults).bypassAuth)
    ensures Items(config, defaults, b, m).accountSettings != Items(config, defaults, b, m).logoutButton
    ensures Items(config, defaults, b, m).accountSettings
            <==> !IsFalse(EffectiveInterface(config, defaults).accountSettings)
  {
  }

  /** Disabled account settings put a logout button in the header whenever
      bypass is off, whether chat history is disabled or not. */
  lemma LogoutWhenSettingsDisabled(config: Option<Config>, defaults: Interface, b: bool, m: bool)
    requires IsFalse(EffectiveInterface(config, defaults).accountSettings)
    requires !IsTrue(EffectiveInterface(config, defaults).bypassAuth)
    ensures Items(config, defaults, b, m).logoutButton
    ensures !Items(config, defaults, b, m).accountSettings
  {
  }

  /** With the interface section present, the header's bypass flag is the
      same as the auth context's. */
  lemma BypassAgreesWithContext(config: Option<Config>, defaults: Interface)
    requires InterfaceOf(config).Some?
    ensures IsTrue(EffectiveInterface(config, defaults).bypassAuth) == BypassAuth(config)
  {
  }
}

=== FILE: headers.dfy ===
/** The default request headers of the HTTP client, as a map from header
    name to value, and the two helpers that update them. The `Authorization`
    value uses the Bearer scheme of section 2.1 of RFC 6750. */
module Headers {
  import opened Values

  type HeaderMap = map<string, string>

  const AuthorizationKey: string := "Authorization"
  const AcceptLanguageKey: string := "Accept-Language"
  const BearerPrefix: string := "Bearer "

  /** `m` and `m'` agree on every key other than `key`. */
  ghost predicate SameExcept(m: HeaderMap, m': HeaderMap, key: string) {
    forall k :: k != key ==> (k in m <==> k in m') && (k in m ==> m[k] == m'[k])
  }

  /** Sets `Accept-Language`. */
  function SetAcceptLanguageHeader(h: HeaderMap, value: string): (r: HeaderMap)
    ensures AcceptLanguageKey in r && r[AcceptLanguageKey] == value
    ensures SameExcept(h, r, AcceptLanguageKey)
  {
    h[AcceptLanguageKey := value]
  }

  /** Sets `Authorization: Bearer <token>`, or removes the header when the
      token is absent or empty. */
  function SetTokenHeader(h: HeaderMap, token: Option<string>): (r: HeaderMap)
    ensures !Filled(token) ==> AuthorizationKey !in r
    ensures Filled(token) ==> AuthorizationKey in r && r[AuthorizationKey] == BearerPrefix + token.value
    ensures SameExcept(h, r, AuthorizationKey)
  {
    if !Filled(token) then h - {AuthorizationKey}
    else h[AuthorizationKey := BearerPrefix + token.value]
  }

  /** The credentials of an `Authorization` value in the Bearer scheme. */
  function BearerCredentials(value: string): Option<string> {
    if HasPrefix(value, BearerPrefix) then Some(value[|BearerPrefix|..]) else None
  }

  /** The token the headers carry, read back from `Authorization`. */
  function TokenOf(h: HeaderMap): Option<string> {
    if AuthorizationKey in h then BearerCredentials(h[AuthorizationKey]) else None
  }

  /** Reading the header back gives the token that was set, and nothing
      when it was cleared. */
  lemma TokenRoundTrip(h: HeaderMap, token: Option<string>)
    ensures Filled(token) ==> TokenOf(SetTokenHeader(h, token)) == token
    ensures !Filled(token) ==> TokenOf(SetTokenHeader(h, token)) == None
  {
    if Filled(token) {
      var v := BearerPrefix + token.value;
      assert v[..|BearerPrefix|] == BearerPrefix;
      assert v[|BearerPrefix|..] == token.value;
    }
  }

  /** Setting the same token twice is the same as setting it once. */
  lemma SetTokenIdempotent(h: HeaderMap, token: Option<string>)
    ensures SetTokenHeader(SetTokenHeader(h, token), token) == SetTokenHeader(h, token)
  {
  }

  /** The later token wins. */
  lemma SetTokenLastWins(h: HeaderMap, t1: Option<string>, t2: Option<string>)
    ensures SetTokenHeader(SetTokenHeader(h, t1), t2) == SetTokenHeader(h, t2)
  {
  }

  /** The two helpers touch different headers, so their order does not matter. */
  lemma HelpersCommute(h: HeaderMap, token: Option<string>, language: string)
    ensures SetAcceptLanguageHeader(SetTokenHeader(h, token), language)
            == SetTokenHeader(SetAcceptLanguageHeader(h, language), token)
  {
  }
}

=== FILE: http.dfy ===
/** The server-side records the authentication middlewares work on: the user
    identity attached to a request, and the request itself. */
module Http {
  import opened Values

  /** The system roles; the string each one stands for is defined by the
      shared data-provider package and is not part of this model. */
  datatype Role = SystemUser | SystemAdmin | Custom(name: string)

  /** A user record as attached to `req.user`. `objectId` is the `_id` field. */
  datatype User = User(
    id: string,
    objectId: string,
    username: string,
    name: string,
    email: string,
    provider: string,
    role: Role,
    plugins: seq<string>,
    createdAt: string,
    updatedAt: string,
    isGuest: bool,
    isBypassAuth: bool)

  /** The parts of an inbound request the middlewares read or write.
      `cookies` is what parsing `cookieHeader` yields (parsing itself is
      not modelled); `isBypassAuth == None` means the field was never set. */
  datatype Request = Request(
    cookieHeader: Option<string>,
    cookies: map<string, string>,
    user: Option<User>,
    isBypassAuth: Option<bool>)
}

=== FILE: optional_jwt_auth.dfy ===
/** The optional-authentication middleware: it always passes the request on,
    attaching a verified user, the guest (under bypass), or nothing. */
module OptionalJwtAuth {
  import opened Values
  import opened Http
  import BypassAuth
  import R = RequireJwtAuth

  /** The strategy choice, written out here as the middleware does it. */
  function SelectStrategy(req: Request, reuseTokens: bool): (s: R.Strategy)
    ensures s == R.OpenIdJwt ==> Filled(req.cookieHeader) && reuseTokens
  {
    var tokenProvider :=
      if Filled(req.cookieHeader) && R.TokenProviderCookie in req.cookies
      then Some(req.cookies[R.TokenProviderCookie]) else None;
    if tokenProvider == Some(R.OpenIdProvider) && reuseTokens then R.OpenIdJwt else R.Jwt
  }

  /** The callback handed to the strategy. */
  function Callback(bypassEnabled: bool, v: R.Verification, req: Request): (o: R.Outcome)
    ensures !o.cont.StrategyDefault?
    ensures v.VerifyError? ==> o == R.Outcome(req, R.NextWithError(v.err))
    ensures v.Verified? ==> o == R.Outcome(req.(user := Some(v.user)), R.Next)
    ensures v.NoUser? && bypassEnabled ==>
              o == R.Outcome(req.(user := Some(BypassAuth.CreateGuestUser()), isBypassAuth := Some(true)), R.Next)
    ensures v.NoUser? && !bypassEnabled ==> o == R.Outcome(req, R.Next)
  {
    match v
    case VerifyError(err) => R.Outcome(req, R.NextWithError(err))
    case Verified(user) => R.Outcome(req.(user := Some(user)), R.Next)
    case NoUser =>
      if bypassEnabled
      then R.Outcome(req.(user := Some(BypassAuth.CreateGuestUser()), isBypassAuth := Some(true)), R.Next)
      else R.Outcome(req, R.Next)
  }

  /** The whole middleware: choose the strategy, consult the cache, decide. */
  function OptionalJwtAuth(
    cache: BypassAuth.CacheState, now: int, load: BypassAuth.ConfigLoad,
    req: Request, reuseTokens: bool, verify: R.Strategy -> R.Verification): (h: R.Handled)
    ensures h.cache == BypassAuth.ShouldBypassAuth(cache, false, now, load).state
    ensures !h.outcome.cont.StrategyDefault?
    ensures BypassAuth.IsFresh(cache, now) ==> h.cache == cache
    ensures BypassAuth.IsFresh(cache, now) && cache.value == Some(true)
            && verify(SelectStrategy(req, reuseTokens)) == R.NoUser ==>
              h.outcome.req.user == Some(BypassAuth.CreateGuestUser()) && h.outcome.req.isBypassAuth == Some(true)
              && h.outcome.cont == R.Next
    ensures load.Failure? && cache.value != Some(true) && verify(SelectStrategy(req, reuseTokens)) == R.NoUser ==>
              h.outcome == R.Outcome(req, R.Next)
    ensures load.Success? && !BypassAuth.IsFresh(cache, now) && verify(SelectStrategy(req, reuseTokens)) == R.NoUser ==>
              (h.outcome.req.isBypassAuth == Some(true) <==> BypassAuth.EnabledIn(load.value) || req.isBypassAuth == Some(true))
    ensures verify(SelectStrategy(req, reuseTokens)).Verified? ==>
              h.outcome == R.Outcome(req.(user := Some(verify(SelectStrategy(req, reuseTokens)).user)), R.Next)
    ensures verify(SelectStrategy(req, reuseTokens)).VerifyError? ==>
              h.outcome == R.Outcome(req, R.NextWithError(verify(SelectStrategy(req, reuseTokens)).err))
  {
    var strategy := SelectStrategy(req, reuseTokens);
    var answer := BypassAuth.ShouldBypassAuth(cache, false, now, load);
    R.Handled(Callback(answer.result, verify(strategy), req), answer.state)
  }

  /** Both middlewares pick the same strategy for every cookie and flag. */
  lemma StrategyAgreesWithRequired(req: Request, reuseTokens: bool)
    ensures SelectStrategy(req, reuseTokens) == R.RunPassportAuth(req, reuseTokens)
  {
  }

  /** With bypass on, the optional middleware behaves exactly like the
      required one. */
  lemma AgreesWithRequiredUnderBypass(strategy: R.Strategy, v: R.Verification, req: Request)
    ensures Callback(true, v, req) == R.Decide(true, strategy, v, req)
  {
  }

  /** The optional middleware never blocks: every outcome but a verification
      error is a plain `next()`, and only the guest carries the bypass mark. */
  lemma NeverBlocks(bypassEnabled: bool, v: R.Verification, req: Request)
    ensures !v.VerifyError? <==> Callback(bypassEnabled, v, req).cont == R.Next
    ensures Callback(bypassEnabled, v, req).req.isBypassAuth != req.isBypassAuth ==>
              bypassEnabled && Callback(bypassEnabled, v, req).req.user == Some(BypassAuth.CreateGuestUser())
  {
  }

  /** Whole middlewares: both leave the cache alike, and whenever the
      required one does not hand the request to the strategy, the two
      produce the same request and continuation. */
  lemma MiddlewaresAgree(
    cache: BypassAuth.CacheState, now: int, load: BypassAuth.ConfigLoad,
    req: Request, reuseTokens: bool, verify: R.Strategy -> R.Verification)
    ensures OptionalJwtAuth(cache, now, load, req, reuseTokens, verify).cache
            == R.RequireJwtAuth(cache, now, load, req, reuseTokens, verify).cache
    ensures !R.RequireJwtAuth(cache, now, load, req, reuseTokens, verify).outcome.cont.StrategyDefault? ==>
              OptionalJwtAuth(cache, now, load, req, reuseTokens, verify).outcome
              == R.RequireJwtAuth(cache, now, load, req, reuseTokens, verify).outcome
  {
    StrategyAgreesWithRequired(req, reuseTokens);
    AgreesWithRequiredUnderBypass(R.RunPassportAuth(req, reuseTokens), verify(R.RunPassportAuth(req, reuseTokens)), req);
  }
}

=== FILE: require_jwt_auth.dfy ===
/** The required-authentication middleware: strategy selection from the
    `token_provider` cookie, and the bypass callback that substitutes the
    guest identity when verification finds no user. */
module RequireJwtAuth {
  import opened Values
  import opened Http
  import BypassAuth

  /** The token-verification strategies the middleware can delegate to. */
  datatype Strategy = Jwt | OpenIdJwt

  const TokenProviderCookie: string := "token_provider"
  const OpenIdProvider: string := "openid"

  /** What the strategy reports to a callback as `(err, user)`. */
  datatype Verification = VerifyError(err: string) | Verified(user: User) | NoUser

  /** How the middleware hands the request on: `next()`, `next(err)`, or the
      strategy's own handling when no callback is passed (not visible here). */
  datatype Continuation = Next | NextWithError(err: string) | StrategyDefault(strategy: Strategy)

  /** The request as the middleware leaves it, and how it continues. */
  datatype Outcome = Outcome(req: Request, cont: Continuation)

  /** A middleware outcome together with the cache state after the bypass check. */
  datatype Handled = Handled(outcome: Outcome, cache: BypassAuth.CacheState)

  /** The `token_provider` cookie, or `None` when there is no cookie header. */
  function GetTokenProvider(req: Request): (p: Option<string>)
    ensures !Filled(req.cookieHeader) ==> p == None
    ensures Filled(req.cookieHeader) ==> (p.Some? <==> TokenProviderCookie in req.cookies)
    ensures p.Some? ==> TokenProviderCookie in req.cookies && p.value == req.cookies[TokenProviderCookie]
  {
    if !Filled(req.cookieHeader) then None
    else if TokenProviderCookie in req.cookies then Some(req.cookies[TokenProviderCookie])
    else None
  }

  /** OpenID token verification only for an `openid` provider with token reuse on. */
  function SelectStrategy(tokenProvider: Option<string>, reuseTokens: bool): (s: Strategy)
    ensures s == OpenIdJwt <==> tokenProvider == Some(OpenIdProvider) && reuseTokens
  {
    if tokenProvider == Some(OpenIdProvider) && reuseTokens then OpenIdJwt else Jwt
  }

  /** The strategy `runPassportAuth` runs for a request. */
  function RunPassportAuth(req: Request, reuseTokens: bool): (s: Strategy)
    ensures !Filled(req.cookieHeader) ==> s == Jwt
    ensures !reuseTokens ==> s == Jwt
  {
    SelectStrategy(GetTokenProvider(req), reuseTokens)
  }

  /** The middleware once the bypass flag is known. Without bypass the
      strategy handles the request itself; with bypass the callback forwards
      errors, attaches a verified user, or attaches the guest. */
  function Decide(bypassEnabled: bool, strategy: Strategy, verification: Verification, req: Request): (o: Outcome)
    ensures !bypassEnabled ==> o == Outcome(req, StrategyDefault(strategy))
    ensures bypassEnabled && verification.VerifyError? ==> o == Outcome(req, NextWithError(verification.err))
    ensures bypassEnabled && verification.Verified? ==>
              o == Outcome(req.(user := Some(verification.user)), Next)
    ensures bypassEnabled && verification.NoUser? ==>
              o == Outcome(req.(user := Some(BypassAuth.CreateGuestUser()), isBypassAuth := Some(true)), Next)
  {
    if !bypassEnabled then Outcome(req, StrategyDefault(strategy))
    else
      match verification
      case VerifyError(err) => Outcome(req, NextWithError(err))
      case Verified(user) => Outcome(req.(user := Some(user)), Next)
      case NoUser => Outcome(req.(user := Some(BypassAuth.CreateGuestUser()), isBypassAuth := Some(true)), Next)
  }

  /** The whole middleware: consult the cache, pick the strategy, decide. */
  function RequireJwtAuth(
    cache: BypassAuth.CacheState, now: int, load: BypassAuth.ConfigLoad,
    req: Request, reuseTokens: bool, verify: Strategy -> Verification): (h: Handled)
    ensures h.cache == BypassAuth.ShouldBypassAuth(cache, false, now, load).state
    ensures BypassAuth.IsFresh(cache, now) ==> h.cache == cache
    ensures BypassAuth.IsFresh(cache, now) && cache.value == Some(false) ==>
              h.outcome == Outcome(req, StrategyDefault(RunPassportAuth(req, reuseTokens)))
    ensures BypassAuth.IsFresh(cache, now) && cache.value == Some(true)
            && verify(RunPassportAuth(req, reuseTokens)) == NoUser ==>
              h.outcome.req.user == Some(BypassAuth.CreateGuestUser()) && h.outcome.cont == Next
    ensures load.Failure? ==> (h.outcome.cont.StrategyDefault? <==> cache.value != Some(true))
    ensures load.Success? && !BypassAuth.IsFresh(cache, now) ==>
              (h.outcome.cont.StrategyDefault? <==> !BypassAuth.EnabledIn(load.value))
    ensures h.outcome.cont.StrategyDefault? ==>
              h.outcome == Outcome(req, StrategyDefault(RunPassportAuth(req, reuseTokens)))
    ensures verify(RunPassportAuth(req, reuseTokens)).VerifyError? ==> h.outcome.req == req
  {
    var answer := BypassAuth.ShouldBypassAuth(cache, false, now, load);
    var strategy := RunPassportAuth(req, reuseTokens);
    Handled(Decide(answer.result, strategy, verify(strategy), req), answer.state)
  }

  /** Under bypass a request is never rejected: unless verification raised
      an error it proceeds, and always with a user attached. */
  lemma BypassNeverRejects(strategy: Strategy, v: Verification, req: Request)
    requires !v.VerifyError?
    ensures Decide(true, strategy, v, req).cont == Next
    ensures Decide(true, strategy, v, req).req.user.Some?
  {
  }

  /** A verification error is propagated whatever the bypass flag: the
      request is never given an identity in that case. */
  lemma ErrorNeverBecomesGuest(bypassEnabled: bool, strategy: Strategy, err: string, req: Request)
    ensures Decide(bypassEnabled, strategy, VerifyError(err), req).req == req
    ensures bypassEnabled ==> Decide(bypassEnabled, strategy, VerifyError(err), req).cont == NextWithError(err)
  {
  }

  /** The middleware touches `req.user` or `req.isBypassAuth` only under
      bypass, and marks the request only when it attached the guest. */
  lemma GuestOnlyUnderBypass(bypassEnabled: bool, strategy: Strategy, v: Verification, req: Request)
    ensures Decide(bypassEnabled, strategy, v, req).req.user != req.user ==> bypassEnabled && !v.VerifyError?
    ensures Decide(bypassEnabled, strategy, v, req).req.isBypassAuth != req.isBypassAuth ==>
              bypassEnabled && v.NoUser?
    ensures Decide(bypassEnabled, strategy, v, req).req.isBypassAuth != req.isBypassAuth ==>
              Decide(bypassEnabled, strategy, v, req).req.user == Some(BypassAuth.CreateGuestUser())
  {
  }

  /** With a stale or empty cache, configuration reporting bypass and a
      request without credentials: the request proceeds as the guest. */
  lemma GuestAdmittedWhenConfigured(
    cache: BypassAuth.CacheState, now: int, config: Option<BypassAuth.AppConfig>,
    req: Request, reuseTokens: bool, verify: Strategy -> Verification)
    requires !BypassAuth.IsFresh(cache, now)
    requires BypassAuth.EnabledIn(config)
    requires verify(RunPassportAuth(req, reuseTokens)) == NoUser
    ensures RequireJwtAuth(cache, now, Success(config), req, reuseTokens, verify).outcome.cont == Next
    ensures RequireJwtAuth(cache, now, Success(config), req, reuseTokens, verify).outcome.req.user
            == Some(BypassAuth.CreateGuestUser())
  {
  }

  /** With a stale or empty cache, configuration reporting no bypass: the
      strategy handles the request with its normal unauthenticated response. */
  lemma StrategyDecidesWhenNotConfigured(
    cache: BypassAuth.CacheState, now: int, config: Option<BypassAuth.AppConfig>,
    req: Request, reuseTokens: bool, verify: Strategy -> Verification)
    requires !BypassAuth.IsFresh(cache, now)
    requires !BypassAuth.EnabledIn(config)
    ensures RequireJwtAuth(cache, now, Success(config), req, reuseTokens, verify).outcome
            == Outcome(req, StrategyDefault(RunPassportAuth(req, reuseTokens)))
  {
  }
}

=== FILE: root_view.dfy ===
/** The root layout's decisions: whether anything renders, the loading
    screen, the navigation panels, and the terms-of-service modal. */
module Root {
  import opened Values
  import opened StartupConfig
  import A = AuthContext

  /** What the root renders: nothing, a loading screen, or the application
      with or without the navigation panels and the terms modal. */
  datatype View = Blank | Loading | Full(showNav: bool, termsModal: bool)

  /** The render outcome. */
  function Render(isAuthenticated: bool, config: Option<Config>, configLoading: bool): (v: View)
    ensures v.Full? ==> v.showNav == !ChatHistoryDisabled(config)
    ensures v.Full? ==> v.termsModal == TermsModalAcceptance(config)
  {
    var bypassAuth := BypassAuth(config);
    var shouldRender := isAuthenticated || bypassAuth || configLoading;
    if !shouldRender then Blank
    else if configLoading && !isAuthenticated && !bypassAuth then Loading
    else Full(!ChatHistoryDisabled(config), TermsModalAcceptance(config))
  }

  /** The three outcomes, each characterised by the inputs. */
  lemma RenderCases(isAuthenticated: bool, config: Option<Config>, configLoading: bool)
    ensures Render(isAuthenticated, config, configLoading) == Blank
            <==> !(isAuthenticated || BypassAuth(config) || configLoading)
    ensures Render(isAuthenticated, config, configLoading) == Loading
            <==> configLoading && !isAuthenticated && !BypassAuth(config)
    ensures Render(isAuthenticated, config, configLoading).Full?
            <==> isAuthenticated || BypassAuth(config)
  {
  }

  /** Once the context has initialised the bypass guest, the application
      renders on its authentication alone, whatever configuration or
      loading state the root sees afterwards. */
  lemma BypassGuestSeesApp(s: A.AuthState, config: Option<Config>, later: Option<Config>, configLoading: bool)
    requires !s.bypassInitialized && BypassAuth(config)
    ensures Render(A.InitBypass(s, config).isAuthenticated, later, configLoading).Full?
  {
  }

  /** The terms query runs only for an authenticated user and only when the
      configuration asks for modal acceptance. */
  function TermsQueryEnabled(isAuthenticated: bool, config: Option<Config>): (enabled: bool)
    ensures enabled ==> isAuthenticated
    ensures enabled ==> InterfaceOf(config).Some? && InterfaceOf(config).value.termsOfService.Some?
    ensures enabled ==> InterfaceOf(config).value.termsOfService.value.modalAcceptance == Bool(true)
  {
    isAuthenticated && TermsModalAcceptance(config)
  }

  /** The bypass guest is authenticated, so a configuration asking for
      modal acceptance starts the terms query for it. */
  lemma BypassGuestGetsTermsQuery(s: A.AuthState, config: Option<Config>)
    requires !s.bypassInitialized && BypassAuth(config) && TermsModalAcceptance(config)
    ensures TermsQueryEnabled(A.InitBypass(s, config).isAuthenticated, config)
  {
  }

  /** A sign-in that authenticates the client starts the terms query exactly
      when the configuration asks for modal acceptance; a sign-out stops it
      whatever the configuration. */
  lemma SignInAndOutGateTerms(s: A.AuthState, data: A.RefreshResponse, testMode: bool,
                              redirect: Option<string>, config: Option<Config>)
    requires Filled(data.token)
    ensures TermsQueryEnabled(A.OnRefreshSuccess(s, Some(data), testMode).state.isAuthenticated, config)
            <==> TermsModalAcceptance(config)
    ensures !TermsQueryEnabled(A.OnLogoutSuccess(s, redirect).state.isAuthenticated, config)
    ensures !TermsQueryEnabled(A.OnLogoutError(s).state.isAuthenticated, config)
  {
  }

  datatype TermsData = TermsData(termsAccepted: bool)

  /** Terms data arriving opens the modal exactly when the terms are not
      yet accepted; no data leaves it as it was. */
  function OnTermsData(showTerms: bool, data: Option<TermsData>): (show: bool)
    ensures data.Some? ==> (show <==> !data.value.termsAccepted)
    ensures data.None? ==> show == showTerms
  {
    if data.Some? then !data.value.termsAccepted else showTerms
  }

  /** Accepting closes the modal. */
  function AcceptTerms(showTerms: bool): (show: bool)
    ensures !show
  {
    false
  }

  /** After accepting, the modal stays closed until terms data arrives that
      reports the terms as not accepted. */
  lemma AcceptedTermsStayClosed(showTerms: bool, data: Option<TermsData>)
    ensures !OnTermsData(AcceptTerms(showTerms), data) <==> data.None? || data.value.termsAccepted
  {
  }

  const DeclineRedirect: string := "/login?redirect=false"

  /** The modal's state and the auth context's step after a decline. */
  datatype Decline = Decline(showTerms: bool, step: A.Step)

  /** Declining closes the modal and logs out towards the login page. */
  function DeclineTerms(s: A.AuthState, env: A.Env): (d: Decline)
    ensures !d.showTerms
    ensures d.step == A.Logout(s, env, Some(DeclineRedirect))
  {
    Decline(false, A.Logout(s, env, Some(DeclineRedirect)))
  }

  /** In bypass mode declining only closes the modal: logout is a no-op. */
  lemma DeclineInBypassKeepsSession(s: A.AuthState, env: A.Env)
    requires env.bypassAuth
    ensures DeclineTerms(s, env).step == A.Step(s, A.Stay, A.NoRequest)
  {
  }

  /** Outside bypass mode, declining issues the logout request, and its
      answer, success or error alike, signs the client out and lands on the
      login page with redirects off. */
  lemma DeclineSignsOut(s: A.AuthState, env: A.Env, serverRedirect: Option<string>)
    requires !env.bypassAuth
    ensures DeclineTerms(s, env).step.request == A.LogoutRequest
    ensures A.OnLogoutSuccess(DeclineTerms(s, env).step.state, serverRedirect).nav
            == A.Navigate(DeclineRedirect, true)
    ensures A.SignedOut(A.OnLogoutSuccess(DeclineTerms(s, env).step.state, serverRedirect).state)
    ensures A.OnLogoutError(DeclineTerms(s, env).step.state).nav == A.Navigate(DeclineRedirect, true)
    ensures A.SignedOut(A.OnLogoutError(DeclineTerms(s, env).step.state).state)
  {
    assert !A.IsAbsoluteUrl(DeclineRedirect) by {
      assert DeclineRedirect[..7][0] == '/' && "http://"[0] == 'h';
      assert DeclineRedirect[..8][0] == '/' && "https://"[0] == 'h';
    }
  }
}

=== FILE: startup_config.dfy ===
/** The startup configuration the client fetches once, restricted to the
    interface fields the authentication and layout decisions read. */
module StartupConfig {
  import opened Values

  datatype TermsOfService = TermsOfService(modalAcceptance: JsValue)

  /** The `interface` section of the startup configuration. */
  datatype Interface = Interface(
    bypassAuth: JsValue,
    disableChatHistory: JsValue,
    accountSettings: JsValue,
    modelSelect: JsValue,
    presets: JsValue,
    termsOfService: Option<TermsOfService>)

  datatype Config = Config(iface: Option<Interface>)

  /** `config?.interface` */
  function InterfaceOf(config: Option<Config>): Option<Interface> {
    if config.Some? then config.value.iface else None
  }

  /** `config?.interface?.bypassAuth === true` */
  predicate BypassAuth(config: Option<Config>) {
    InterfaceOf(config).Some? && IsTrue(InterfaceOf(config).value.bypassAuth)
  }

  /** `config?.interface?.disableChatHistory === true` */
  predicate ChatHistoryDisabled(config: Option<Config>) {
    InterfaceOf(config).Some? && IsTrue(InterfaceOf(config).value.disableChatHistory)
  }

  /** `config?.interface?.termsOfService?.modalAcceptance === true` */
  predicate TermsModalAcceptance(config: Option<Config>) {
    && InterfaceOf(config).Some?
    && InterfaceOf(config).value.termsOfService.Some?
    && IsTrue(InterfaceOf(config).value.termsOfService.value.modalAcceptance)
  }

  /** Only the literal `true` turns bypass on, so truthy look-alikes such as
      `"true"` or `1` do not; a missing section means off. */
  lemma OnlyLiteralTrueEnablesBypass(i: Interface)
    ensures !BypassAuth(None) && !BypassAuth(Some(Config(None)))
    ensures BypassAuth(Some(Config(Some(i)))) <==> i.bypassAuth == Bool(true)
  {
  }
}

=== FILE: values.dfy ===
/** Nullable values, results of operations that may throw, and the small part
    of JavaScript value semantics the bypass feature relies on: strict
    comparison with `true`/`false`, truthiness, and string prefixes. */
module Values {

  /** A value that may be absent (`null` or `undefined`). */
  datatype Option<+T> = None | Some(value: T) {

    /** The `??` operator: the value, or `default` when absent. */
    function GetOr(default: T): T {
      match this
      case Some(v) => v
      case None => default
    }
  }

  /** The outcome of an operation that either returns or throws. */
  datatype Result<+T, +E> = Success(value: T) | Failure(error: E)

  /** A configuration value as JavaScript sees it. Numbers are integers, so
      `NaN` does not arise. */
  datatype JsValue = Undefined | Null | Bool(b: bool) | Num(n: int) | Str(s: string) | Obj

  /** `v === true` */
  predicate IsTrue(v: JsValue) {
    v == Bool(true)
  }

  /** `v === false` */
  predicate IsFalse(v: JsValue) {
    v == Bool(false)
  }

  /** `!!v` */
  predicate Truthy(v: JsValue) {
    match v
    case Undefined => false
    case Null => false
    case Bool(b) => b
    case Num(n) => n != 0
    case Str(s) => s != ""
    case Obj => true
  }

  /** Truthiness of an optional string: present and non-empty. */
  predicate Filled(s: Option<string>) {
    s.Some? && s.value != ""
  }

  /** `s.startsWith(p)` */
  predicate HasPrefix(s: string, p: string) {
    |p| <= |s| && s[..|p|] == p
  }
}
